=== FILE: README.md ===
# BCG quiz master bridge: control state, in Dafny

This project models the control state of the ESP32 bridge in `src/main.cpp`.
The bridge reads one-line commands from a Bluetooth serial channel. The
commands set or report the network configuration: the local address, the
subnet mask, the gateway, and the inbound and outbound UDP ports. The bridge
keeps that configuration in the `Preferences` flash store. It also relays an
OSC trigger with value v to entry v of an eight-entry target table
(`outIPs[v-1]`), together with a connect message to `PC_IP`, and then latches
until a debounced switch resets it. Only the reset addresses all eight targets.

The model has four parts:

- **Configuration persistence** (`config_store.dfy`, module `ConfigStore`).
  The store is a `map<string, int>`. Each address octet is saved under its own
  key, `prefix + i`: `ip0..ip3`, `sub0..sub3` and `gw0..gw3`. Each port is one
  key, `inPort` or `outPort`. The module defines what saving and loading do to
  the store. It proves that a load right after a save gives back all five
  fields exactly, that an empty store loads the defaults, and that a save
  writes its fourteen keys and nothing else.
- **Command processor** (`commands.dfy`, module `Commands`, with the string
  primitives in `text.dfy`, module `Text`). `Classify` is the ordered
  `if`/`else if` chain of `processData` applied to the trimmed line. Its
  tail after the five `SET_` tests is `QueryCommand`, applied to the text
  before the first NUL.
  `Execute` is what each branch does to the configuration and the store, and
  `Process` chains trim, branch choice and effect. The library parsers
  `IPAddress::fromString` and `String::toInt` are parameters. Every lemma
  except `NonNumericPortRejected` holds for any parser; that one assumes
  `toInt` reads non-numeric text as 0, as `atol` does.
- **Trigger latch and switch reset** (`osc.dfy`, module `Osc`). `Trigger` and
  `Switch` give the latch, the debounce timestamp and the datagrams sent, as
  functions of the state before the call. The lemmas cover the one-shot
  trigger, re-arming by a reset, and the debounce window across the 2^32
  wrap of `millis()`.
- **The firmware's globals** (`firmware.dfy`, class `Firmware.Bridge`). This
  class holds the five configuration fields, `status`, `lastMillis`, the store
  and an outbox of sent datagrams. Its methods follow the firmware's functions
  statement by statement, including the octet loops of
  `saveIPAddress`/`loadIPAddress` and the clearing loop of `readSwitch`. Each
  method is proved against the matching specification function above.

`net.dfy` (module `Net`) holds the machine types (`uint8_t`, `uint16_t`,
`uint32_t`), the four-octet address, the configuration record and its
defaults.

Points where the code behaves differently from what a reader might expect, modelled as the code has them:

- The second, substring-matched `GET` branch is reachable. A trimmed line
  gets there when it starts with none of the five `SET_` prefixes, its text
  before the first NUL is not `GET`, `IP` or `MAC`, and that text contains
  `GET` but not `HELP` (`SubstringBranches`; `GetContainedReachable` gives
  one such line).
- A line read by `readStringUntil` may hold a NUL byte. The `startsWith`
  tests compare the whole line against literals with no NUL, but `==`
  (`strcmp`) and `indexOf` (`strstr`) stop at the first NUL. So `IP`, NUL,
  `x` gets the link-IP reply, and `HELP` after a NUL is not seen
  (`NulEndsCommand`). Past a NUL only the `SET_` tests look at the line
  (`NulHidesTail`); the configuration and the store depend on the `SET_`
  tests alone.
- After a failed `SET_SUBNET`, the store is unchanged. The in-memory subnet is
  whatever `fromString` leaves in it, because the library writes into its
  target in place. `fromString` is therefore modelled as a function from the
  target's current value and the text to `AddressParse(ok, octets)`. It is not
  modelled as a bare optional result.
- The switch is sampled by level, not detected by edge. A HIGH pin outside
  the 500 ms window resets the latch, whatever its previous level was.
- The `SET_INPORT` argument is `substring(10)`, so it starts with the
  separating space. `strtol` skips that space (`NonNumericPortRejected`).
- The store is read back through narrowing casts. An octet is `getUInt % 256`
  and a port is `getUInt % 65536`, as the `uint32_t` to `uint8_t`/`uint16_t`
  assignments do.

## Model

| member | source | states |
|---|---|---|
| `Text.LeadingSpaces` | src/main.cpp:159 | counts exactly the whitespace run at the start of the line: all counted characters are whitespace and the next one is not |
| `Text.TrailingSpaces` | src/main.cpp:159 | counts exactly the whitespace run at the end of the line |
| `Text.Trim` | src/main.cpp:159 | `trim()` gives a slice of the line with no whitespace at either end, and every character outside the slice is whitespace |
| `Text.TrimKeepsTrimmed` | src/main.cpp:159 | trimming a line with no surrounding whitespace leaves it as it is |
| `Text.TrimIdempotent` | src/main.cpp:159 | trimming twice is the same as trimming once |
| `Text.CStr` | src/main.cpp:182-192 | the text that `strcmp` and `strstr` see: the line up to, not including, its first NUL, which contains no NUL |
| `Text.CStrNoNul` | src/main.cpp:182-192 | a line with no NUL is seen whole by `==` and `indexOf` |
| `Text.CStrStopsAtNul` | src/main.cpp:182-197 | whatever follows the first NUL of a line is invisible to `==` and `indexOf` |
| `Text.CStrIdempotent` | src/main.cpp:182-192 | cutting at the first NUL twice is cutting once |
| `Text.StartsWith` | src/main.cpp:169-181 | `startsWith` with a literal: the literal is a prefix of the whole line (the definition `ClassifySetPrefixes` and `PrefixesClash` are proved against) |
| `Text.PrefixesClash` | src/main.cpp:169-181 | two prefixes that differ at a shared position cannot both start the line, which is why the `startsWith` tests do not shadow each other |
| `Text.IndexFrom` | src/main.cpp:185-189 | `strstr` from a position: the first occurrence of the pattern at or after it, or -1 exactly when there is none |
| `Text.IndexOf` | src/main.cpp:185-189 | `strstr` on a text: the result is -1 exactly when `p` does not occur, and otherwise its first occurrence; the firmware's `indexOf` applies it to `CStr` of the line |
| `Text.NonNumeric` | src/main.cpp:173-178 | text in which `strtol`, behind `toInt`, finds no number: after the leading whitespace, neither a digit nor a sign followed by a digit (the property `NonNumericSkipsSpace` and `NonNumericPortRejected` are stated with) |
| `Text.NonNumericSkipsSpace` | src/main.cpp:173 | a leading space does not change whether `toInt` finds a number, so the space kept by `substring(10)` is harmless |
| `Net.Defaults` | src/main.cpp:91-95 | the compiled-in fallbacks of `loadNetworkConfig`: 192.168.1.99, 255.255.255.0, 192.168.1.1, 7001 and 7000 (what `LoadEmpty` proves an empty store loads) |
| `ConfigStore.DigitChar` | src/main.cpp:57 | the character `String + int` appends for an octet index 0..9, in the keys of `saveIPAddress` and `loadIPAddress` alike (distinct for distinct indices, as `KeyInjective` uses) |
| `ConfigStore.Key` | src/main.cpp:65 | the key `String(keyPrefix) + i` of octet i, the same in `loadIPAddress` as in `saveIPAddress` (proved injective in `KeyInjective` and disjoint across prefixes in `ConfigKeysDisjoint`) |
| `ConfigStore.GetUInt` | src/main.cpp:66 | `getUInt(key, default)`, here and for the two ports of `loadNetworkConfig`: the stored value, or the default when the key is missing (what `LoadOctet`, `LoadAfterSave` and `LoadEmpty` are proved against) |
| `ConfigStore.PutOctets` | src/main.cpp:55-60 | after i turns of the `saveIPAddress` loop, octets 0..i-1 are stored under their own keys and no earlier key is lost |
| `ConfigStore.SaveAddress` | src/main.cpp:55-60 | `saveIPAddress` stores each of the four octets under its own key `prefix + i` and loses no key |
| `ConfigStore.LoadOctet` | src/main.cpp:62-69 | one octet of `loadIPAddress`: the default when the key is missing, else the stored value narrowed to `uint8_t`, which is the stored value when it fits |
| `ConfigStore.LoadAddress` | src/main.cpp:62-69 | `loadIPAddress`: the four octets, each as `LoadOctet` reads it (the definition `LoadAfterSaveAddress` and `LoadAddressFrame` are proved against) |
| `ConfigStore.SaveConfig` | src/main.cpp:79-87 | `saveNetworkConfig` loses no key and stores both ports and the gateway octets under their keys; `LoadAfterSave` and `SaveConfigFootprint` give the rest |
| `ConfigStore.LoadConfig` | src/main.cpp:89-97 | `loadNetworkConfig` takes each port from its key narrowed to `uint16_t`, or 7001/7000 when the key is missing; `LoadAfterSave` and `LoadEmpty` give the rest |
| `ConfigStore.KeyInjective` | src/main.cpp:57 | `prefix + i` keys are equal exactly when both prefix and index are equal |
| `ConfigStore.ConfigKeysDisjoint` | src/main.cpp:79-87 | the keys `ip0..3`, `sub0..3`, `gw0..3`, `inPort` and `outPort` are pairwise distinct |
| `ConfigStore.SaveAddressUnfold` | src/main.cpp:55-60 | `saveIPAddress` is the four `putUInt` writes of octets 0..3, in order |
| `ConfigStore.SaveAddressFootprint` | src/main.cpp:55-60 | `saveIPAddress` adds its four keys to the store and keeps every other entry |
| `ConfigStore.LoadAddressFrame` | src/main.cpp:62-69 | `loadIPAddress` reads only the four keys of its prefix |
| `ConfigStore.LoadAfterSaveAddress` | src/main.cpp:55-69 | `loadIPAddress` after `saveIPAddress` with the same prefix returns the saved address, whatever the default |
| `ConfigStore.LoadAfterSave` | src/main.cpp:79-97 | `loadNetworkConfig` after `saveNetworkConfig` restores the ip, subnet, gateway, inPort and outPort exactly, whatever the store held before |
| `ConfigStore.LoadEmpty` | src/main.cpp:89-97 | an empty store loads 192.168.1.99, 255.255.255.0, 192.168.1.1, 7001 and 7000 |
| `ConfigStore.SaveConfigFootprint` | src/main.cpp:79-87 | `saveNetworkConfig` writes exactly its fourteen keys and leaves every other entry of the store as it was |
| `Commands.Classify` | src/main.cpp:169-192 | the ordered branch choice, with `==` and `indexOf` on the text before the first NUL; only lines that start with `SET_` reach a branch that can change the configuration |
| `Commands.QueryCommand` | src/main.cpp:182-192 | the `==` and `indexOf` tests after the five `SET_` tests, on the text before the first NUL: none of these branches changes the configuration or the store |
| `Commands.WithAddress` | src/main.cpp:160-162 | the `updateIP` target is one of ip, subnet and gateway; writing it leaves the other two and both ports alone |
| `Commands.WithPort` | src/main.cpp:172-181 | a port branch writes its own port and leaves the other port and the addresses alone |
| `Commands.PortInRange` | src/main.cpp:174 | the port check `port > 0 && port < 65536` (the definition `PortCommand` and `UpdatePort` are stated with) |
| `Commands.UpdateAddress` | src/main.cpp:160-168 | the target takes whatever the parser left in it; on success the store is a full save of the new configuration, which reloads as itself; on failure the store is untouched |
| `Commands.UpdatePort` | src/main.cpp:172-181 | in range, the port takes the parsed value and the store is a full save of the new configuration, which reloads as itself; out of range, the outcome is unchanged state and "invalid port" |
| `Commands.Process` | src/main.cpp:158-193 | a trimmed line that does not start with `SET_` changes nothing; whatever a line writes to the store is a full save that reloads as the new configuration |
| `Commands.Execute` | src/main.cpp:160-192 | a branch that is not a `SET_` command changes neither the configuration nor the store, and any change to the store is a full save of the new configuration |
| `Commands.ClassifySetPrefixes` | src/main.cpp:169-181 | a trimmed line starting with a `SET_` prefix takes that branch, with the argument at the code's `substring` offset, whatever else (`HELP`, `GET`) the line contains |
| `Commands.SetOutIpIsInert` | src/main.cpp:158-193 | `SET_OUTIP`, which the help text lists, has no branch, so such a line changes no field and writes nothing to the store |
| `Commands.SubstringBranches` | src/main.cpp:185-192 | for a trimmed line with none of the five `SET_` prefixes whose text before the first NUL is not `GET`, `IP` or `MAC`: it is a help request exactly when that text contains `HELP`, and a configuration report exactly when it contains `GET` but not `HELP` |
| `Commands.NulHidesTail` | src/main.cpp:169-192 | a line with none of the `SET_` prefixes takes the same branch as its text before the first NUL, and that branch changes nothing |
| `Commands.NulEndsCommand` | src/main.cpp:182-192 | `IP`, NUL, `x` gets the link-IP reply, and `x`, NUL, `HELP` is unrecognised |
| `Commands.GetContainedReachable` | src/main.cpp:189-192 | the substring `GET` branch is reached, for example by `GET CONFIG`, and reports the configuration without changing anything |
| `Commands.HelpBeforeGet` | src/main.cpp:185-192 | the `HELP` substring test comes before the `GET` substring test: `GET HELP` gets the help reply and changes nothing |
| `Commands.AddressCommand` | src/main.cpp:160-171 | `SET_IP`/`SET_SUBNET`/`SET_GATEWAY` save the configuration exactly when the parse succeeds, and a reload then gives it back; on failure the store is untouched and the target holds what the parser left |
| `Commands.PortCommand` | src/main.cpp:172-181 | `SET_INPORT n`/`SET_OUTPORT n` set the port and save exactly when 0 < n < 65536, and a reload then gives the port back; otherwise configuration and store are unchanged and the reply is "invalid port" |
| `Commands.NonNumericPortRejected` | src/main.cpp:172-181 | when `toInt` reads non-numeric text as 0, a port command with such an argument is rejected and changes nothing |
| `Commands.ProcessGet` | src/main.cpp:182 | the line `GET` reports the configuration and changes neither it nor the store |
| `Commands.SetIpThenGet` | src/main.cpp:169-182 | after a successful `SET_IP`, `GET` reports the new address, and the store reloads it |
| `Osc.DeviceMessage` | src/main.cpp:111-121 | `oscSend(v)`: `/device/` with v, to `outIPs[v-1]` on `outPort` (the message `TriggerWhileIdle` states) |
| `Osc.ConnectMessage` | src/main.cpp:99-109 | `resolumeOSCSend()`: `/column/1/connect` with 1, to `PC_IP` on `outPort` |
| `Osc.ClearMessage` | src/main.cpp:123-133 | `clearOSCSend(v)`: `/clear/` with v, to `outIPs[v]` on `outPort` (the message `ResetMessagesShape` states) |
| `Osc.Trigger` | src/main.cpp:135-139 | `processOSCData`: afterwards the latch is set and the timestamp unchanged; it sends something exactly when the latch was clear |
| `Osc.Elapsed` | src/main.cpp:204 | `millis() - lastMillis` in `uint32_t`: the plain difference, or the difference plus 2^32 when `millis()` has wrapped |
| `Osc.Switch` | src/main.cpp:203-215 | `readSwitch`: it sends something exactly when 500 ms have elapsed and the pin is HIGH, and then unlatches and stamps `now`; otherwise the latch and timestamp are unchanged |
| `Osc.ResetMessages` | src/main.cpp:208-212 | the sends of an accepted reset: the clearing loop, then `clearOSCSend(1)` (the sequence `ResetMessagesShape` describes) |
| `Osc.ClearSweep` | src/main.cpp:208-210 | after i turns, the clearing loop has sent `/clear/` with value j to `outIPs[j]`, for j < i, in order |
| `Osc.ResetMessagesShape` | src/main.cpp:205-214 | an accepted reset sends exactly nine `/clear/` messages on `outPort`: value i to `outIPs[i]` for i = 0..7, then value 1 to `outIPs[1]` again |
| `Osc.TriggerWhileIdle` | src/main.cpp:99-137 | a trigger with `status` false sends `/device/` v to `outIPs[v-1]`, then `/column/1/connect` 1 to `PC_IP`, both on `outPort`, and sets `status` |
| `Osc.TriggerOneShot` | src/main.cpp:135-137 | after any trigger `status` is set, and every further trigger sends nothing and changes nothing |
| `Osc.ResetRearms` | src/main.cpp:203-214 | an accepted reset clears the latch, so the next trigger is relayed again |
| `Osc.ElapsedAfter` | src/main.cpp:204 | the unsigned difference `now - lastMillis` measures the time since `lastMillis`, across the 2^32 wrap of `millis()` |
| `Osc.SecondPressIgnored` | src/main.cpp:203-214 | two HIGH readings less than 500 ms apart, even across the wrap, give only one reset |
| `Osc.AcceptedResetUnlatches` | src/main.cpp:205-214 | an accepted HIGH reading sets `status` false whatever it was, sets `lastMillis` to now, and sends the reset messages |
| `Osc.IgnoredReadings` | src/main.cpp:204-205 | inside the 500 ms window, or with the pin not HIGH, `readSwitch` sends nothing and leaves `status` and `lastMillis` unchanged |
| `Firmware.Bridge.constructor` | src/main.cpp:21-41 | the globals start as 0.0.0.0 addresses, ports 7001/7000, `status` false, `lastMillis` 0, over the flash store as it was left |
| `Firmware.Bridge.SaveIPAddress` | src/main.cpp:55-60 | the `for (i < 4)` loop leaves the store as `SaveAddress` says |
| `Firmware.Bridge.LoadIPAddress` | src/main.cpp:62-69 | the `for (i < 4)` loop returns each octet from its key, or from the default, narrowed to 8 bits |
| `Firmware.Bridge.SaveNetworkConfig` | src/main.cpp:79-87 | the store becomes `SaveConfig` of the old store and the current configuration |
| `Firmware.Bridge.LoadNetworkConfig` | src/main.cpp:89-97 | the five fields become `LoadConfig` of the store |
| `Firmware.Bridge.UpdateAddress` | src/main.cpp:160-168 | the target takes the parser's value, and the store is saved exactly when the parse succeeds |
| `Firmware.Bridge.UpdatePort` | src/main.cpp:172-181 | the range-checked port update and save |
| `Firmware.Bridge.ProcessData` | src/main.cpp:158-193 | the configuration, the store and the reply after a line, NUL cut-off included, are exactly `Process` of the old ones, so every `Commands` lemma applies to it; the latch, timestamp and outbox are untouched |
| `Firmware.Bridge.ResolumeOscSend` | src/main.cpp:99-109 | appends `/column/1/connect` 1 to `PC_IP` on `outPort` |
| `Firmware.Bridge.OscSend` | src/main.cpp:111-121 | appends `/device/` v to `outIPs[v-1]` on `outPort`, for v in 1..8 |
| `Firmware.Bridge.ClearOscSend` | src/main.cpp:123-133 | appends `/clear/` v to `outIPs[v]` on `outPort`, for v in 0..7 |
| `Firmware.Bridge.ProcessOscData` | src/main.cpp:135-139 | the latch and the outbox change as `Trigger` says |
| `Firmware.Bridge.OscReceive` | src/main.cpp:141-154 | only the exact address `/device/` reaches `processOSCData`, with the argument narrowed to `uint8_t`; any other address changes nothing |
| `Firmware.Bridge.ReadSwitch` | src/main.cpp:203-215 | the latch, `lastMillis` and the outbox change as `Switch` says: the 500 ms unsigned debounce, then for a HIGH pin the unlatch, the nine clears and the new timestamp |

## Left out

- Ethernet bring-up and the link-event handler (`ethInit`, `WiFiEvent`, `ESP.restart`), `setup` and `loop`: platform I/O and a process restart.
- The Bluetooth serial transport (`readBTSerial`, `readStringUntil`) and the text of every reply: replies are the `Reply` tags. The `IP` and `MAC` commands only read the hardware, so they are tags with no content. `GET` carries the configuration it prints.
- OSC encoding and decoding and the UDP socket (`OSCMessage`, `Udp.beginPacket`/`endPacket`/`parsePacket`/`read`): outbound datagrams are outbox entries, and inbound ones arrive already decoded as an (address, int) pair. A malformed inbound payload is not modelled.
- `Preferences` namespaces and `begin`/`end`: the store is one map. The crash window between the individual writes of a save is not modelled.
- `IPAddress::fromString` and `String::toInt` are library code that is not part of this model. They are parameters of the command processor. `ReadsNonNumericAsZero` is the one property of `toInt` that a lemma assumes.
- `millis()` and `digitalRead` are parameters of `ReadSwitch`. The firmware reads `millis()` twice, once for the check and once for the new timestamp; the model uses one `now` for both.
- `DEBUG` logging on the USB serial port.
- Firmware.Bridge.ProcessOscData: requires 1 <= v <= 8 when `status` is false, because `outIPs[v-1]` is out of bounds otherwise and the firmware does not check it. Out-of-range values (undefined behaviour in the source) are not modelled.
- Firmware.Bridge.OscReceive: the library's `fullMatch("/device/")` is modelled as string equality; OSC address-pattern matching (wildcards, brackets) is not modelled.
- Firmware.Bridge.OscReceive: requires the narrowed argument to be in 1..8 when the address is `/device/` and `status` is false, for the same reason.

=== FILE: commands.dfy ===
/**
 * The command processor of the control channel (`processData`) as functions:
 * which branch a trimmed line takes, and what that branch does to the
 * configuration and the persistent store. The library parsers it calls,
 * `IPAddress::fromString` and `String::toInt`, are parameters.
 */
module Commands {
  import opened Net
  import opened Text
  import opened ConfigStore

  datatype AddressField = IpField | SubnetField | GatewayField
  datatype PortField = InPortField | OutPortField

  /** The branch of `processData` a trimmed line takes, with the argument text it passes on. */
  datatype Command =
    | SetAddress(field: AddressField, arg: string)
    | SetPort(port: PortField, arg: string)
    | GetExact
    | ShowLinkIp
    | ShowMac
    | ShowHelp
    | GetContained
    | Unrecognized
  {
    /** The branches that may change the configuration and the store. */
    predicate IsUpdate()
    {
      SetAddress? || SetPort?
    }
  }

  /**
   * The outcome of `target.fromString(text)`: whether it succeeded, and the
   * value the target holds afterwards (on failure, whatever the library left).
   */
  datatype AddressParse = AddressParse(ok: bool, octets: Octets)

  /** `IPAddress::fromString`, applied to the target's current value and the text. */
  type AddressParser = (Octets, string) -> AddressParse

  /** `String::toInt`. */
  type IntParser = string -> int

  /** `String::toInt` returns 0 for text `strtol` reads no digits from. */
  ghost predicate ReadsNonNumericAsZero(toInt: IntParser)
  {
    forall s :: NonNumeric(s) ==> toInt(s) == 0
  }

  /** What the control channel is told, as a tag in place of the text. */
  datatype Reply =
    | AddressSaved(field: AddressField)
    | InvalidAddress(field: AddressField)
    | PortSaved(port: PortField, value: u16)
    | InvalidPort
    | ConfigReport(config: NetworkConfig)
    | LinkIpReport
    | MacReport
    | HelpReport
    | Silent

  /** The configuration, the store and the reply after one line. */
  datatype Outcome = Outcome(config: NetworkConfig, store: Store, reply: Reply)

  /**
   * The `if`/`else if` chain of `processData` on an already trimmed line:
   * the first test that holds decides. Argument offsets are those the code
   * passes to `substring`; for `SET_INPORT ` it is 10, so the argument keeps
   * the separating space. The `startsWith` tests compare the whole buffer
   * (`strncmp` against a literal with no NUL); the `==` tests (`strcmp`) and
   * the `indexOf` tests (`strstr`) that follow see the line only up to its
   * first NUL, so they are taken on `CStr(data)`.
   */
  function Classify(data: string): (c: Command)
    ensures c.IsUpdate() ==> StartsWith(data, "SET_")
  {
    SetPrefixesStartSet(data);
    if StartsWith(data, "SET_IP ") then SetAddress(IpField, data[7..])
    else if StartsWith(data, "SET_SUBNET ") then SetAddress(SubnetField, data[11..])
    else if StartsWith(data, "SET_GATEWAY ") then SetAddress(GatewayField, data[12..])
    else if StartsWith(data, "SET_INPORT ") then SetPort(InPortField, data[10..])
    else if StartsWith(data, "SET_OUTPORT ") then SetPort(OutPortField, data[12..])
    else QueryCommand(CStr(data))
  }

  /** Each of the five update prefixes begins with `SET_`. */
  lemma SetPrefixesStartSet(data: string)
    ensures StartsWith(data, "SET_IP ") ==> StartsWith(data, "SET_")
    ensures StartsWith(data, "SET_SUBNET ") ==> StartsWith(data, "SET_")
    ensures StartsWith(data, "SET_GATEWAY ") ==> StartsWith(data, "SET_")
    ensures StartsWith(data, "SET_INPORT ") ==> StartsWith(data, "SET_")
    ensures StartsWith(data, "SET_OUTPORT ") ==> StartsWith(data, "SET_")
  {
    if StartsWith(data, "SET_IP ") { PrefixOfPrefix(data, "SET_IP ", "SET_"); }
    if StartsWith(data, "SET_SUBNET ") { PrefixOfPrefix(data, "SET_SUBNET ", "SET_"); }
    if StartsWith(data, "SET_GATEWAY ") { PrefixOfPrefix(data, "SET_GATEWAY ", "SET_"); }
    if StartsWith(data, "SET_INPORT ") { PrefixOfPrefix(data, "SET_INPORT ", "SET_"); }
    if StartsWith(data, "SET_OUTPORT ") { PrefixOfPrefix(data, "SET_OUTPORT ", "SET_"); }
  }

  /** The rest of the chain, after the five `SET_` tests: none of it is an update. */
  function QueryCommand(c: string): (cmd: Command)
    ensures !cmd.IsUpdate()
  {
    if c == "GET" then GetExact
    else if c == "IP" then ShowLinkIp
    else if c == "MAC" then ShowMac
    else if IndexOf(c, "HELP") >= 0 then ShowHelp
    else if IndexOf(c, "GET") >= 0 then GetContained
    else Unrecognized
  }

  function AddressOf(cfg: NetworkConfig, f: AddressField): Octets
  {
    match f
    case IpField => cfg.ip
    case SubnetField => cfg.subnet
    case GatewayField => cfg.gateway
  }

  function WithAddress(cfg: NetworkConfig, f: AddressField, a: Octets): (r: NetworkConfig)
    ensures AddressOf(r, f) == a
    ensures r.inPort == cfg.inPort && r.outPort == cfg.outPort
    ensures forall g :: g != f ==> AddressOf(r, g) == AddressOf(cfg, g)
  {
    match f
    case IpField => cfg.(ip := a)
    case SubnetField => cfg.(subnet := a)
    case GatewayField => cfg.(gateway := a)
  }

  function PortOf(cfg: NetworkConfig, f: PortField): u16
  {
    match f
    case InPortField => cfg.inPort
    case OutPortField => cfg.outPort
  }

  function WithPort(cfg: NetworkConfig, f: PortField, n: u16): (r: NetworkConfig)
    ensures PortOf(r, f) == n
    ensures r.ip == cfg.ip && r.subnet == cfg.subnet && r.gateway == cfg.gateway
    ensures forall g :: g != f ==> PortOf(r, g) == PortOf(cfg, g)
  {
    match f
    case InPortField => cfg.(inPort := n)
    case OutPortField => cfg.(outPort := n)
  }

  /** The range check of the port commands: `port > 0 && port < 65536`. */
  predicate PortInRange(n: int)
  {
    n > 0 && n < 65536
  }

  /**
   * The `updateIP` lambda: parse into the target, save the configuration only
   * on success. The target holds what the parser left in it either way; a
   * saved configuration reloads as the new one.
   */
  function UpdateAddress(cfg: NetworkConfig, store: Store, f: AddressField, arg: string, fromString: AddressParser): (o: Outcome)
    ensures AddressOf(o.config, f) == fromString(AddressOf(cfg, f), arg).octets
    ensures fromString(AddressOf(cfg, f), arg).ok ==> o.store == SaveConfig(store, o.config)
    ensures fromString(AddressOf(cfg, f), arg).ok ==> LoadConfig(o.store) == o.config && o.reply == AddressSaved(f)
    ensures !fromString(AddressOf(cfg, f), arg).ok ==> o.store == store && o.reply == InvalidAddress(f)
  {
    var parsed := fromString(AddressOf(cfg, f), arg);
    var updated := WithAddress(cfg, f, parsed.octets);
    LoadAfterSave(store, updated);
    if parsed.ok then Outcome(updated, SaveConfig(store, updated), AddressSaved(f))
    else Outcome(updated, store, InvalidAddress(f))
  }

  /**
   * A port branch: parse, range check, then set the port and save the
   * configuration. Out of range, nothing changes; in range, the saved
   * configuration reloads as the new one.
   */
  function UpdatePort(cfg: NetworkConfig, store: Store, f: PortField, arg: string, toInt: IntParser): (o: Outcome)
    ensures PortInRange(toInt(arg)) ==> PortOf(o.config, f) == toInt(arg) && o.store == SaveConfig(store, o.config)
    ensures PortInRange(toInt(arg)) ==> LoadConfig(o.store) == o.config
    ensures !PortInRange(toInt(arg)) ==> o == Outcome(cfg, store, InvalidPort)
  {
    var n := toInt(arg);
    if PortInRange(n) then
      LoadAfterSave(store, WithPort(cfg, f, n));
      var updated := WithPort(cfg, f, n);
      Outcome(updated, SaveConfig(store, updated), PortSaved(f, n))
    else Outcome(cfg, store, InvalidPort)
  }

  /** What one branch of `processData` does, given the configuration and the store before it. */
  function Execute(cfg: NetworkConfig, store: Store, cmd: Command, fromString: AddressParser, toInt: IntParser): (o: Outcome)
    ensures !cmd.IsUpdate() ==> o.config == cfg && o.store == store
    ensures o.store != store ==> o.store == SaveConfig(store, o.config)
  {
    match cmd
    case SetAddress(f, arg) => UpdateAddress(cfg, store, f, arg, fromString)
    case SetPort(f, arg) => UpdatePort(cfg, store, f, arg, toInt)
    case GetExact => Outcome(cfg, store, ConfigReport(cfg))
    case ShowLinkIp => Outcome(cfg, store, LinkIpReport)
    case ShowMac => Outcome(cfg, store, MacReport)
    case ShowHelp => Outcome(cfg, store, HelpReport)
    case GetContained => Outcome(cfg, store, ConfigReport(cfg))
    case Unrecognized => Outcome(cfg, store, Silent)
  }

  /**
   * `processData(line)`: trim, pick the branch, carry it out. Only a line
   * starting with `SET_` can change anything, and whatever it writes to the
   * store reloads as the new configuration.
   */
  function Process(cfg: NetworkConfig, store: Store, line: string, fromString: AddressParser, toInt: IntParser): (o: Outcome)
    ensures !StartsWith(Trim(line), "SET_") ==> o.config == cfg && o.store == store
    ensures o.store != store ==> o.store == SaveConfig(store, o.config) && LoadConfig(o.store) == o.config
  {
    var o := Execute(cfg, store, Classify(Trim(line)), fromString, toInt);
    LoadAfterSave(store, o.config);
    o
  }

  /** A line with no whitespace at either end is processed as it stands. */
  lemma ProcessTrimmed(cfg: NetworkConfig, store: Store, line: string, fromString: AddressParser, toInt: IntParser)
    requires Trimmed(line)
    ensures Process(cfg, store, line, fromString, toInt) == Execute(cfg, store, Classify(line), fromString, toInt)
  {
    TrimKeepsTrimmed(line);
  }

  /**
   * The `SET_` prefixes are tested first, in order; none of them shadows a
   * later one, so a line that starts with one of them takes that branch,
   * whatever else (`HELP`, `GET`) it contains.
   */
  lemma ClassifySetPrefixes(data: string)
    ensures StartsWith(data, "SET_IP ") ==> Classify(data) == SetAddress(IpField, data[7..])
    ensures StartsWith(data, "SET_SUBNET ") ==> Classify(data) == SetAddress(SubnetField, data[11..])
    ensures StartsWith(data, "SET_GATEWAY ") ==> Classify(data) == SetAddress(GatewayField, data[12..])
    ensures StartsWith(data, "SET_INPORT ") ==> Classify(data) == SetPort(InPortField, data[10..])
    ensures StartsWith(data, "SET_OUTPORT ") ==> Classify(data) == SetPort(OutPortField, data[12..])
  {
    if StartsWith(data, "SET_SUBNET ") {
      PrefixesClash(data, "SET_SUBNET ", "SET_IP ", 4);
    }
    if StartsWith(data, "SET_GATEWAY ") {
      PrefixesClash(data, "SET_GATEWAY ", "SET_IP ", 4);
      PrefixesClash(data, "SET_GATEWAY ", "SET_SUBNET ", 4);
    }
    if StartsWith(data, "SET_INPORT ") {
      PrefixesClash(data, "SET_INPORT ", "SET_IP ", 5);
      PrefixesClash(data, "SET_INPORT ", "SET_SUBNET ", 4);
      PrefixesClash(data, "SET_INPORT ", "SET_GATEWAY ", 4);
    }
    if StartsWith(data, "SET_OUTPORT ") {
      PrefixesClash(data, "SET_OUTPORT ", "SET_IP ", 4);
      PrefixesClash(data, "SET_OUTPORT ", "SET_SUBNET ", 4);
      PrefixesClash(data, "SET_OUTPORT ", "SET_GATEWAY ", 4);
      PrefixesClash(data, "SET_OUTPORT ", "SET_INPORT ", 4);
    }
  }

  /**
   * `SET_OUTIP`, listed in the help text, has no branch: a line starting with
   * it never changes the configuration or the store.
   */
  lemma SetOutIpIsInert(cfg: NetworkConfig, store: Store, line: string, fromString: AddressParser, toInt: IntParser)
    requires StartsWith(Trim(line), "SET_OUTIP")
    ensures Process(cfg, store, line, fromString, toInt).config == cfg
    ensures Process(cfg, store, line, fromString, toInt).store == store
  {
    var data := Trim(line);
    PrefixesClash(data, "SET_OUTIP", "SET_IP ", 4);
    PrefixesClash(data, "SET_OUTIP", "SET_SUBNET ", 4);
    PrefixesClash(data, "SET_OUTIP", "SET_GATEWAY ", 4);
    PrefixesClash(data, "SET_OUTIP", "SET_INPORT ", 4);
    PrefixesClash(data, "SET_OUTIP", "SET_OUTPORT ", 7);
    assert !Classify(data).IsUpdate();
  }

  /** A line that does not start with `S` has none of the five `SET_` prefixes. */
  lemma NoSetPrefix(data: string)
    requires data == [] || data[0] != 'S'
    ensures !StartsWith(data, "SET_IP ") && !StartsWith(data, "SET_SUBNET ") && !StartsWith(data, "SET_GATEWAY ")
    ensures !StartsWith(data, "SET_INPORT ") && !StartsWith(data, "SET_OUTPORT ")
  {
    if data != [] {
      assert StartsWith(data, [data[0]]);
      PrefixesClash(data, [data[0]], "SET_IP ", 0);
      PrefixesClash(data, [data[0]], "SET_SUBNET ", 0);
      PrefixesClash(data, [data[0]], "SET_GATEWAY ", 0);
      PrefixesClash(data, [data[0]], "SET_INPORT ", 0);
      PrefixesClash(data, [data[0]], "SET_OUTPORT ", 0);
    }
  }

  /**
   * The two substring branches: a trimmed line that starts with none of the
   * five `SET_` prefixes and whose text before the first NUL is not `GET`,
   * `IP` or `MAC` is a help request exactly when that text contains `HELP`,
   * and reports the configuration exactly when it contains `GET` but not `HELP`.
   */
  lemma SubstringBranches(data: string)
    requires !StartsWith(data, "SET_IP ") && !StartsWith(data, "SET_SUBNET ") && !StartsWith(data, "SET_GATEWAY ")
    requires !StartsWith(data, "SET_INPORT ") && !StartsWith(data, "SET_OUTPORT ")
    requires CStr(data) != "GET" && CStr(data) != "IP" && CStr(data) != "MAC"
    ensures Classify(data) == ShowHelp <==> IndexOf(CStr(data), "HELP") >= 0
    ensures Classify(data) == GetContained <==> IndexOf(CStr(data), "HELP") < 0 && IndexOf(CStr(data), "GET") >= 0
  {
  }

  /**
   * Past a NUL only the `SET_` tests look: a line that starts with none of
   * the five prefixes takes the same branch as its text before the first NUL.
   */
  lemma NulHidesTail(data: string)
    requires !StartsWith(data, "SET_IP ") && !StartsWith(data, "SET_SUBNET ") && !StartsWith(data, "SET_GATEWAY ")
    requires !StartsWith(data, "SET_INPORT ") && !StartsWith(data, "SET_OUTPORT ")
    ensures Classify(data) == Classify(CStr(data))
    ensures !Classify(data).IsUpdate()
  {
    var c := CStr(data);
    if StartsWith(c, "SET_IP ") { CStrPrefix(data, "SET_IP "); }
    if StartsWith(c, "SET_SUBNET ") { CStrPrefix(data, "SET_SUBNET "); }
    if StartsWith(c, "SET_GATEWAY ") { CStrPrefix(data, "SET_GATEWAY "); }
    if StartsWith(c, "SET_INPORT ") { CStrPrefix(data, "SET_INPORT "); }
    if StartsWith(c, "SET_OUTPORT ") { CStrPrefix(data, "SET_OUTPORT "); }
    CStrIdempotent(data);
  }

  /**
   * `IP`, then a NUL, then more text gets the link-IP reply, as `strcmp`
   * stops at the NUL; `HELP` after a NUL is not seen.
   */
  lemma NulEndsCommand()
    ensures Classify("IP\0x") == ShowLinkIp
    ensures Classify("x\0HELP") == Unrecognized
  {
    CStrStopsAtNul("IP", "x");
    CStrStopsAtNul("x", "HELP");
    assert "IP\0x" == "IP" + ['\0'] + "x";
    assert "x\0HELP" == "x" + ['\0'] + "HELP";
    NoSetPrefix("IP\0x");
    NoSetPrefix("x\0HELP");
    assert IndexOf("x", "HELP") == -1;
    assert IndexOf("x", "GET") == -1;
  }

  /**
   * The substring `GET` branch is reachable: `GET CONFIG` starts with no
   * `SET_` prefix, is none of the exact commands, contains `GET` and no
   * `HELP`, and reports the configuration there.
   */
  lemma GetContainedReachable(cfg: NetworkConfig, store: Store, fromString: AddressParser, toInt: IntParser)
    ensures Classify("GET CONFIG") == GetContained
    ensures Process(cfg, store, "GET CONFIG", fromString, toInt) == Outcome(cfg, store, ConfigReport(cfg))
  {
    ClassifyGetConfig();
    ProcessTrimmed(cfg, store, "GET CONFIG", fromString, toInt);
  }

  /** `GET CONFIG` has no `HELP` and contains `GET` at 0, so it takes the substring `GET` branch. */
  lemma ClassifyGetConfig()
    ensures Classify("GET CONFIG") == GetContained
  {
    CStrNoNul("GET CONFIG");
    GetConfigSearches();
    NoSetPrefix("GET CONFIG");
    SubstringBranches("GET CONFIG");
  }

  /** `GET CONFIG` contains `GET` and no `HELP`. */
  lemma GetConfigSearches()
    ensures IndexOf("GET CONFIG", "HELP") == -1
    ensures IndexOf("GET CONFIG", "GET") >= 0
  {
    assert OccursAt("GET CONFIG", "GET", 0);
  }

  /** A line with both `HELP` and `GET` that takes none of the earlier branches is a help request. */
  lemma HelpBeforeGet(cfg: NetworkConfig, store: Store, fromString: AddressParser, toInt: IntParser)
    ensures Classify("GET HELP") == ShowHelp
    ensures Process(cfg, store, "GET HELP", fromString, toInt) == Outcome(cfg, store, HelpReport)
  {
    ClassifyGetHelp();
    ProcessTrimmed(cfg, store, "GET HELP", fromString, toInt);
  }

  /** `GET HELP` contains `HELP` at 4, so it takes the `HELP` branch. */
  lemma ClassifyGetHelp()
    ensures Classify("GET HELP") == ShowHelp
  {
    CStrNoNul("GET HELP");
    NoSetPrefix("GET HELP");
    GetHelpSearches();
    assert Classify("GET HELP") == QueryCommand("GET HELP");
  }

  /** `GET HELP` contains `HELP`. */
  lemma GetHelpSearches()
    ensures IndexOf("GET HELP", "HELP") >= 0
  {
    assert OccursAt("GET HELP", "HELP", 4);
  }

  /**
   * `SET_IP`, `SET_SUBNET`, `SET_GATEWAY`: the target takes the value the
   * parser leaves in it; the store is saved exactly when the parse succeeds,
   * and then reloading it gives the new configuration back.
   */
  lemma AddressCommand(cfg: NetworkConfig, store: Store, line: string, fromString: AddressParser, toInt: IntParser,
                       f: AddressField, arg: string)
    requires Classify(Trim(line)) == SetAddress(f, arg)
    ensures var o := Process(cfg, store, line, fromString, toInt);
      var parsed := fromString(AddressOf(cfg, f), arg);
      && o.config == WithAddress(cfg, f, parsed.octets)
      && (parsed.ok ==> o.store == SaveConfig(store, o.config) && LoadConfig(o.store) == o.config
                        && o.reply == AddressSaved(f))
      && (!parsed.ok ==> o.store == store && o.reply == InvalidAddress(f))
  {
    var o := Process(cfg, store, line, fromString, toInt);
    if fromString(AddressOf(cfg, f), arg).ok {
      LoadAfterSave(store, o.config);
    }
  }

  /**
   * `SET_INPORT n` / `SET_OUTPORT n`: the port is set and the store saved
   * exactly when 0 < n < 65536; otherwise nothing changes. An accepted port
   * survives a reload.
   */
  lemma PortCommand(cfg: NetworkConfig, store: Store, line: string, fromString: AddressParser, toInt: IntParser,
                    f: PortField, arg: string)
    requires Classify(Trim(line)) == SetPort(f, arg)
    ensures var o := Process(cfg, store, line, fromString, toInt);
      var n := toInt(arg);
      && (PortInRange(n) ==> o.config == WithPort(cfg, f, n) && o.store == SaveConfig(store, o.config)
                             && LoadConfig(o.store) == o.config && o.reply == PortSaved(f, n))
      && (!PortInRange(n) ==> o == Outcome(cfg, store, InvalidPort))
  {
    var o := Process(cfg, store, line, fromString, toInt);
    if PortInRange(toInt(arg)) {
      LoadAfterSave(store, o.config);
    }
  }

  /**
   * A port command whose argument is not a number is rejected: `toInt` reads
   * it as 0. For `SET_INPORT` the argument handed to `toInt` starts with the
   * separating space, which `strtol` skips.
   */
  lemma NonNumericPortRejected(cfg: NetworkConfig, store: Store, line: string, fromString: AddressParser, toInt: IntParser)
    requires ReadsNonNumericAsZero(toInt)
    requires || (StartsWith(Trim(line), "SET_INPORT ") && NonNumeric(Trim(line)[11..]))
             || (StartsWith(Trim(line), "SET_OUTPORT ") && NonNumeric(Trim(line)[12..]))
    ensures Process(cfg, store, line, fromString, toInt) == Outcome(cfg, store, InvalidPort)
  {
    var data := Trim(line);
    if StartsWith(data, "SET_INPORT ") && NonNumeric(data[11..]) {
      InPortRejected(cfg, store, line, fromString, toInt);
    } else {
      OutPortRejected(cfg, store, line, fromString, toInt);
    }
  }

  /** The `SET_INPORT` half of `NonNumericPortRejected`. */
  lemma InPortRejected(cfg: NetworkConfig, store: Store, line: string, fromString: AddressParser, toInt: IntParser)
    requires ReadsNonNumericAsZero(toInt)
    requires StartsWith(Trim(line), "SET_INPORT ") && NonNumeric(Trim(line)[11..])
    ensures Process(cfg, store, line, fromString, toInt) == Outcome(cfg, store, InvalidPort)
  {
    var data := Trim(line);
    ClassifySetPrefixes(data);
    InPortArgument(data);
    NonNumericSkipsSpace(' ', data[11..]);
    assert toInt(data[10..]) == 0;
    PortCommand(cfg, store, line, fromString, toInt, InPortField, data[10..]);
  }

  /** The `SET_OUTPORT` half of `NonNumericPortRejected`. */
  lemma OutPortRejected(cfg: NetworkConfig, store: Store, line: string, fromString: AddressParser, toInt: IntParser)
    requires ReadsNonNumericAsZero(toInt)
    requires StartsWith(Trim(line), "SET_OUTPORT ") && NonNumeric(Trim(line)[12..])
    ensures Process(cfg, store, line, fromString, toInt) == Outcome(cfg, store, InvalidPort)
  {
    var data := Trim(line);
    ClassifySetPrefixes(data);
    assert toInt(data[12..]) == 0;
    PortCommand(cfg, store, line, fromString, toInt, OutPortField, data[12..]);
  }

  /** The `SET_INPORT` argument is the separating space followed by the text after the prefix. */
  lemma InPortArgument(data: string)
    requires StartsWith(data, "SET_INPORT ")
    ensures data[10..] == [' '] + data[11..]
  {
    assert data[10] == data[..11][10] == ' ';
  }

  /**
   * A successful `SET_IP` followed by `GET` reports the new address, and
   * reloading the store after the two lines gives it back as well.
   */
  lemma SetIpThenGet(cfg: NetworkConfig, store: Store, line: string, fromString: AddressParser, toInt: IntParser, arg: string)
    requires Classify(Trim(line)) == SetAddress(IpField, arg)
    requires fromString(cfg.ip, arg).ok
    ensures var first := Process(cfg, store, line, fromString, toInt);
      var second := Process(first.config, first.store, "GET", fromString, toInt);
      && second.reply == ConfigReport(first.config)
      && first.config.ip == fromString(cfg.ip, arg).octets
      && LoadConfig(second.store).ip == fromString(cfg.ip, arg).octets
  {
    var first := Process(cfg, store, line, fromString, toInt);
    AddressCommand(cfg, store, line, fromString, toInt, IpField, arg);
    ProcessGet(first.config, first.store, fromString, toInt);
  }

  /** `GET` on its own reports the configuration and changes nothing. */
  lemma ProcessGet(cfg: NetworkConfig, store: Store, fromString: AddressParser, toInt: IntParser)
    ensures Process(cfg, store, "GET", fromString, toInt) == Outcome(cfg, store, ConfigReport(cfg))
  {
    TrimKeepsTrimmed("GET");
    CStrNoNul("GET");
    NoSetPrefix("GET");
    assert Classify("GET") == QueryCommand("GET") == GetExact;
  }
}

=== FILE: config_store.dfy ===
/**
 * The persistent key/value store (`Preferences`, namespace "CONFIG") as a map,
 * the keys under which the network configuration is kept, and what saving and
 * loading do to it. Each address octet is a key of its own, `prefix + i`; each
 * port is one key.
 */
module ConfigStore {
  import opened Net

  /** The `Preferences` store: key to the `uint32` written by `putUInt`. */
  type Store = map<string, int>

  /** The character that Arduino's `String + int` appends for a one-digit number. */
  function DigitChar(i: nat): char
    requires i < 10
  {
    ('0' as int + i) as char
  }

  /** The key of octet `i` of the address saved under `prefix` ("ip0", "sub3", ...). */
  function Key(prefix: string, i: nat): string
    requires i < 10
  {
    prefix + [DigitChar(i)]
  }

  /** `Preferences::getUInt`: the stored value, or `default` when the key is missing. */
  function GetUInt(store: Store, key: string, default: int): int
  {
    if key in store then store[key] else default
  }

  const IpPrefix := "ip"
  const SubnetPrefix := "sub"
  const GatewayPrefix := "gw"
  const InPortKey := "inPort"
  const OutPortKey := "outPort"

  /** The store after the first `n` turns of the loop in `saveIPAddress`. */
  function PutOctets(store: Store, prefix: string, a: Octets, n: nat): (s: Store)
    requires n <= 4
    ensures forall k :: k in store ==> k in s
    ensures forall i :: 0 <= i < n ==> Key(prefix, i) in s && s[Key(prefix, i)] == a[i]
  {
    if n == 0 then store
    else
      // the earlier keys end in a different digit
      assert forall i :: 0 <= i < n - 1 ==> Key(prefix, i)[|prefix|] != Key(prefix, n - 1)[|prefix|];
      PutOctets(store, prefix, a, n - 1)[Key(prefix, n - 1) := a[n - 1]]
  }

  /** `saveIPAddress(prefix, a)`: all four octets written, each under its own key. */
  function SaveAddress(store: Store, prefix: string, a: Octets): (s: Store)
    ensures forall k :: k in store ==> k in s
    ensures forall i :: 0 <= i < 4 ==> Key(prefix, i) in s && s[Key(prefix, i)] == a[i]
  {
    PutOctets(store, prefix, a, 4)
  }

  /** One octet as `loadIPAddress` reads it: `getUInt` narrowed to `uint8_t`. */
  function LoadOctet(store: Store, prefix: string, i: nat, default: byte): (b: byte)
    requires i < 4
    ensures Key(prefix, i) !in store ==> b == default
    ensures Key(prefix, i) in store && 0 <= store[Key(prefix, i)] < 0x100 ==> b == store[Key(prefix, i)]
    ensures Key(prefix, i) in store ==> b == store[Key(prefix, i)] % 0x100
  {
    GetUInt(store, Key(prefix, i), default) % 0x100
  }

  /** `loadIPAddress(prefix, default)`: each octet from its key, or from `default`. */
  function LoadAddress(store: Store, prefix: string, default: Octets): Octets
  {
    [LoadOctet(store, prefix, 0, default[0]), LoadOctet(store, prefix, 1, default[1]),
     LoadOctet(store, prefix, 2, default[2]), LoadOctet(store, prefix, 3, default[3])]
  }

  /** `saveNetworkConfig`: the three addresses, then the two ports. */
  function SaveConfig(store: Store, cfg: NetworkConfig): (s: Store)
    ensures forall k :: k in store ==> k in s
    ensures InPortKey in s && s[InPortKey] == cfg.inPort
    ensures OutPortKey in s && s[OutPortKey] == cfg.outPort
    ensures forall i :: 0 <= i < 4 ==> Key(GatewayPrefix, i) in s && s[Key(GatewayPrefix, i)] == cfg.gateway[i]
  {
    SaveAddress(SaveAddress(SaveAddress(store, IpPrefix, cfg.ip), SubnetPrefix, cfg.subnet), GatewayPrefix, cfg.gateway)
      [InPortKey := cfg.inPort][OutPortKey := cfg.outPort]
  }

  /** `loadNetworkConfig`: every field from the store, with its default; ports narrowed to `uint16_t`. */
  function LoadConfig(store: Store): (c: NetworkConfig)
    ensures InPortKey !in store ==> c.inPort == DefaultInPort
    ensures InPortKey in store && 0 <= store[InPortKey] < 0x1_0000 ==> c.inPort == store[InPortKey]
    ensures OutPortKey !in store ==> c.outPort == DefaultOutPort
    ensures OutPortKey in store && 0 <= store[OutPortKey] < 0x1_0000 ==> c.outPort == store[OutPortKey]
  {
    NetworkConfig(
      LoadAddress(store, IpPrefix, DefaultIp),
      LoadAddress(store, SubnetPrefix, DefaultSubnet),
      LoadAddress(store, GatewayPrefix, DefaultGateway),
      GetUInt(store, InPortKey, DefaultInPort) % 0x1_0000,
      GetUInt(store, OutPortKey, DefaultOutPort) % 0x1_0000)
  }

  /** The four keys of the address saved under `prefix`. */
  function AddressKeys(prefix: string): set<string>
  {
    {Key(prefix, 0), Key(prefix, 1), Key(prefix, 2), Key(prefix, 3)}
  }

  /** Every key `saveNetworkConfig` writes. */
  function ConfigKeys(): set<string>
  {
    AddressKeys(IpPrefix) + AddressKeys(SubnetPrefix) + AddressKeys(GatewayPrefix) + {InPortKey, OutPortKey}
  }

  /** Distinct (prefix, octet) pairs give distinct keys. */
  lemma KeyInjective(p: string, i: nat, q: string, j: nat)
    requires i < 10 && j < 10
    ensures Key(p, i) == Key(q, j) <==> p == q && i == j
  {
    if Key(p, i) == Key(q, j) {
      assert |p| == |q|;
      assert p == Key(p, i)[..|p|] == Key(q, j)[..|q|] == q;
      assert DigitChar(i) == Key(p, i)[|p|] == Key(q, j)[|q|] == DigitChar(j);
    }
  }

  /** The five groups of keys of the configuration do not overlap. */
  lemma ConfigKeysDisjoint()
    ensures AddressKeys(IpPrefix) !! AddressKeys(SubnetPrefix)
    ensures AddressKeys(IpPrefix) !! AddressKeys(GatewayPrefix)
    ensures AddressKeys(SubnetPrefix) !! AddressKeys(GatewayPrefix)
    ensures InPortKey !in AddressKeys(IpPrefix) + AddressKeys(SubnetPrefix) + AddressKeys(GatewayPrefix)
    ensures OutPortKey !in AddressKeys(IpPrefix) + AddressKeys(SubnetPrefix) + AddressKeys(GatewayPrefix)
    ensures InPortKey != OutPortKey
  {
    // the groups differ in key length, or else in the first character
    forall i: nat | i < 4
      ensures |Key(IpPrefix, i)| == 3 && Key(IpPrefix, i)[0] == 'i'
      ensures |Key(SubnetPrefix, i)| == 4
      ensures |Key(GatewayPrefix, i)| == 3 && Key(GatewayPrefix, i)[0] == 'g'
    {
    }
  }

  /** The four writes of `saveIPAddress`, one after the other. */
  lemma SaveAddressUnfold(store: Store, prefix: string, a: Octets)
    ensures SaveAddress(store, prefix, a)
         == store[Key(prefix, 0) := a[0]][Key(prefix, 1) := a[1]][Key(prefix, 2) := a[2]][Key(prefix, 3) := a[3]]
  {
    assert PutOctets(store, prefix, a, 1) == store[Key(prefix, 0) := a[0]];
    assert PutOctets(store, prefix, a, 2) == PutOctets(store, prefix, a, 1)[Key(prefix, 1) := a[1]];
    assert PutOctets(store, prefix, a, 3) == PutOctets(store, prefix, a, 2)[Key(prefix, 2) := a[2]];
  }

  /** Saving an address touches its own four keys and no other. */
  lemma SaveAddressFootprint(store: Store, prefix: string, a: Octets)
    ensures SaveAddress(store, prefix, a).Keys == store.Keys + AddressKeys(prefix)
    ensures forall k :: k in store && k !in AddressKeys(prefix) ==> SaveAddress(store, prefix, a)[k] == store[k]
  {
    SaveAddressUnfold(store, prefix, a);
  }

  /** Loading an address reads only its own four keys. */
  lemma LoadAddressFrame(s: Store, t: Store, prefix: string, default: Octets)
    requires forall k :: k in AddressKeys(prefix) ==> (k in s <==> k in t) && (k in s ==> s[k] == t[k])
    ensures LoadAddress(s, prefix, default) == LoadAddress(t, prefix, default)
  {
  }

  /** An address loaded right after it was saved under the same prefix is the saved one. */
  lemma LoadAfterSaveAddress(store: Store, prefix: string, a: Octets, default: Octets)
    ensures LoadAddress(SaveAddress(store, prefix, a), prefix, default) == a
  {
    SaveAddressUnfold(store, prefix, a);
    forall i: nat, j: nat | i < 4 && j < 4 && i != j ensures Key(prefix, i) != Key(prefix, j) {
      KeyInjective(prefix, i, prefix, j);
    }
    var saved := SaveAddress(store, prefix, a);
    assert saved[Key(prefix, 3)] == a[3];
    assert saved[Key(prefix, 2)] == a[2];
    assert saved[Key(prefix, 1)] == a[1];
    assert saved[Key(prefix, 0)] == a[0];
  }

  /**
   * Persistence round trip: `loadNetworkConfig` after `saveNetworkConfig`
   * restores all five fields, whatever the store held before.
   */
  lemma LoadAfterSave(store: Store, cfg: NetworkConfig)
    ensures LoadConfig(SaveConfig(store, cfg)) == cfg
  {
    ConfigKeysDisjoint();
    var s1 := SaveAddress(store, IpPrefix, cfg.ip);
    var s2 := SaveAddress(s1, SubnetPrefix, cfg.subnet);
    var s3 := SaveAddress(s2, GatewayPrefix, cfg.gateway);
    var s5 := s3[InPortKey := cfg.inPort][OutPortKey := cfg.outPort];
    SaveAddressFootprint(s1, SubnetPrefix, cfg.subnet);
    SaveAddressFootprint(s2, GatewayPrefix, cfg.gateway);

    LoadAfterSaveAddress(store, IpPrefix, cfg.ip, DefaultIp);
    LoadAddressFrame(s5, s1, IpPrefix, DefaultIp);
    LoadAfterSaveAddress(s1, SubnetPrefix, cfg.subnet, DefaultSubnet);
    LoadAddressFrame(s5, s2, SubnetPrefix, DefaultSubnet);
    LoadAfterSaveAddress(s2, GatewayPrefix, cfg.gateway, DefaultGateway);
    LoadAddressFrame(s5, s3, GatewayPrefix, DefaultGateway);
  }

  /** An empty store loads the compiled-in defaults. */
  lemma LoadEmpty()
    ensures LoadConfig(map[]) == Defaults()
  {
  }

  /** Saving the configuration writes exactly its fourteen keys and keeps every other entry. */
  lemma SaveConfigFootprint(store: Store, cfg: NetworkConfig)
    ensures SaveConfig(store, cfg).Keys == store.Keys + ConfigKeys()
    ensures forall k :: k in store && k !in ConfigKeys() ==> SaveConfig(store, cfg)[k] == store[k]
  {
    var s1 := SaveAddress(store, IpPrefix, cfg.ip);
    var s2 := SaveAddress(s1, SubnetPrefix, cfg.subnet);
    SaveAddressFootprint(store, IpPrefix, cfg.ip);
    SaveAddressFootprint(s1, SubnetPrefix, cfg.subnet);
    SaveAddressFootprint(s2, GatewayPrefix, cfg.gateway);
    SaveConfigKeys(store, cfg);
  }

  /** The keys of the store after `saveNetworkConfig`. */
  lemma SaveConfigKeys(store: Store, cfg: NetworkConfig)
    ensures SaveConfig(store, cfg).Keys == store.Keys + ConfigKeys()
  {
    var s1 := SaveAddress(store, IpPrefix, cfg.ip);
    var s2 := SaveAddress(s1, SubnetPrefix, cfg.subnet);
    var s3 := SaveAddress(s2, GatewayPrefix, cfg.gateway);
    SaveAddressFootprint(store, IpPrefix, cfg.ip);
    SaveAddressFootprint(s1, SubnetPrefix, cfg.subnet);
    SaveAddressFootprint(s2, GatewayPrefix, cfg.gateway);
    assert SaveConfig(store, cfg).Keys == s3.Keys + {InPortKey, OutPortKey};
    UnionRegroup(store.Keys, AddressKeys(IpPrefix), AddressKeys(SubnetPrefix), AddressKeys(GatewayPrefix), {InPortKey, OutPortKey});
  }

  /** Regrouping a chain of unions, stated over plain sets so that no key is inspected. */
  lemma UnionRegroup(s: set<string>, a: set<string>, b: set<string>, c: set<string>, d: set<string>)
    ensures s + a + b + c + d == s + (a + b + c + d)
  {
  }
}

=== FILE: firmware.dfy ===
/**
 * The bridge's global state and the functions of the firmware that change it,
 * as one object: the network configuration, the trigger latch, the debounce
 * timestamp, the persistent store and the datagrams sent so far. Each method
 * is proved against the specification functions of ConfigStore, Commands and Osc.
 */
module Firmware {
  import opened Net
  import opened Text
  import opened ConfigStore
  import opened Commands
  import opened Osc

  class Bridge {
    var ip: Octets
    var subnet: Octets
    var gateway: Octets
    var inPort: u16
    var outPort: u16
    /** The trigger latch: true once a trigger has been relayed, until the switch resets it. */
    var status: bool
    /** When the last switch reset was accepted, in `millis()` time. */
    var lastMillis: u32
    /** The `Preferences` store, as it stands in flash. */
    var store: Store
    /** Every datagram sent so far, oldest first. */
    var outbox: seq<Message>

    function Config(): NetworkConfig
      reads this
    {
      NetworkConfig(ip, subnet, gateway, inPort, outPort)
    }

    function LatchState(): Latch
      reads this
    {
      Latch(status, lastMillis)
    }

    /** The globals as the program starts, over the store `flash` left by earlier runs. */
    constructor (flash: Store)
      ensures ip == Unset && subnet == Unset && gateway == Unset
      ensures inPort == DefaultInPort && outPort == DefaultOutPort
      ensures !status && lastMillis == 0
      ensures store == flash && outbox == []
    {
      ip, subnet, gateway := Unset, Unset, Unset;
      inPort, outPort := DefaultInPort, DefaultOutPort;
      status, lastMillis := false, 0;
      store, outbox := flash, [];
    }

    /** `saveIPAddress(prefix, address)`: one `putUInt` per octet, under `prefix + i`. */
    method SaveIPAddress(prefix: string, address: Octets)
      modifies this`store
      ensures store == SaveAddress(old(store), prefix, address)
    {
      for i := 0 to 4
        invariant store == PutOctets(old(store), prefix, address, i)
      {
        store := store[Key(prefix, i) := address[i]];
      }
    }

    /** `loadIPAddress(prefix, default)`: one `getUInt` per octet, falling back to `default`. */
    method LoadIPAddress(prefix: string, default: Octets) returns (result: Octets)
      ensures result == LoadAddress(store, prefix, default)
    {
      result := Unset;
      for i := 0 to 4
        invariant forall j :: 0 <= j < i ==> result[j] == LoadOctet(store, prefix, j, default[j])
      {
        result := result[i := GetUInt(store, Key(prefix, i), default[i]) % 0x100];
      }
    }

    /** `saveNetworkConfig()`: the three addresses, then the two ports. */
    method SaveNetworkConfig()
      modifies this`store
      ensures store == SaveConfig(old(store), Config())
    {
      SaveIPAddress(IpPrefix, ip);
      SaveIPAddress(SubnetPrefix, subnet);
      SaveIPAddress(GatewayPrefix, gateway);
      store := store[InPortKey := inPort];
      store := store[OutPortKey := outPort];
    }

    /** `loadNetworkConfig()`: every field from the store or its default. */
    method LoadNetworkConfig()
      modifies this`ip, this`subnet, this`gateway, this`inPort, this`outPort
      ensures Config() == LoadConfig(store)
    {
      ip := LoadIPAddress(IpPrefix, DefaultIp);
      subnet := LoadIPAddress(SubnetPrefix, DefaultSubnet);
      gateway := LoadIPAddress(GatewayPrefix, DefaultGateway);
      inPort := GetUInt(store, InPortKey, DefaultInPort) % 0x1_0000;
      outPort := GetUInt(store, OutPortKey, DefaultOutPort) % 0x1_0000;
    }

    /** The `updateIP` lambda of `processData`: parse into the target, save on success. */
    method UpdateAddress(f: AddressField, value: string, fromString: AddressParser) returns (reply: Reply)
      modifies this`ip, this`subnet, this`gateway, this`store
      ensures Outcome(Config(), store, reply) == Commands.UpdateAddress(old(Config()), old(store), f, value, fromString)
    {
      var parsed := fromString(AddressOf(Config(), f), value);
      match f {
        case IpField => ip := parsed.octets;
        case SubnetField => subnet := parsed.octets;
        case GatewayField => gateway := parsed.octets;
      }
      if parsed.ok {
        SaveNetworkConfig();
        reply := AddressSaved(f);
      } else {
        reply := InvalidAddress(f);
      }
    }

    /** The two port branches of `processData`: range check, then set and save. */
    method UpdatePort(f: PortField, value: string, toInt: IntParser) returns (reply: Reply)
      modifies this`inPort, this`outPort, this`store
      ensures Outcome(Config(), store, reply) == Commands.UpdatePort(old(Config()), old(store), f, value, toInt)
    {
      var port := toInt(value);
      if port > 0 && port < 65536 {
        match f {
          case InPortField => inPort := port;
          case OutPortField => outPort := port;
        }
        assert Config() == WithPort(old(Config()), f, port);
        SaveNetworkConfig();
        reply := PortSaved(f, port);
      } else {
        reply := InvalidPort;
      }
    }

    /**
     * `processData(line)`: trim, then the first branch whose test holds; the
     * `==` and `indexOf` tests see the line up to its first NUL, `text`. Only
     * the configuration and the store can change, as `Process` says.
     */
    method ProcessData(line: string, fromString: AddressParser, toInt: IntParser) returns (reply: Reply)
      modifies this`ip, this`subnet, this`gateway, this`inPort, this`outPort, this`store
      ensures Outcome(Config(), store, reply) == Process(old(Config()), old(store), line, fromString, toInt)
    {
      var data := Trim(line);
      ghost var cmd := Classify(data);
      var text := CStr(data);
      assert Process(Config(), store, line, fromString, toInt) == Execute(Config(), store, cmd, fromString, toInt);
      if StartsWith(data, "SET_IP ") {
        assert cmd == SetAddress(IpField, data[7..]);
        reply := UpdateAddress(IpField, data[7..], fromString);
      } else if StartsWith(data, "SET_SUBNET ") {
        assert cmd == SetAddress(SubnetField, data[11..]);
        reply := UpdateAddress(SubnetField, data[11..], fromString);
      } else if StartsWith(data, "SET_GATEWAY ") {
        assert cmd == SetAddress(GatewayField, data[12..]);
        reply := UpdateAddress(GatewayField, data[12..], fromString);
      } else if StartsWith(data, "SET_INPORT ") {
        assert cmd == SetPort(InPortField, data[10..]);
        reply := UpdatePort(InPortField, data[10..], toInt);
      } else if StartsWith(data, "SET_OUTPORT ") {
        assert cmd == SetPort(OutPortField, data[12..]);
        reply := UpdatePort(OutPortField, data[12..], toInt);
      } else if text == "GET" {
        assert cmd == GetExact;
        reply := ConfigReport(Config());
      } else if text == "IP" {
        assert cmd == ShowLinkIp;
        reply := LinkIpReport;
      } else if text == "MAC" {
        assert cmd == ShowMac;
        reply := MacReport;
      } else if IndexOf(text, "HELP") >= 0 {
        assert cmd == ShowHelp;
        reply := HelpReport;
      } else if IndexOf(text, "GET") >= 0 {
        assert cmd == GetContained;
        reply := ConfigReport(Config());
      } else {
        assert cmd == Unrecognized;
        reply := Silent;
      }
    }

    /** `resolumeOSCSend()`. */
    method ResolumeOscSend()
      modifies this`outbox
      ensures outbox == old(outbox) + [ConnectMessage(outPort)]
    {
      outbox := outbox + [Message(PcIp, outPort, ConnectAddress, 1)];
    }

    /** `oscSend(value)`: indexes `outIPs[value-1]`, so only 1..8 are in bounds. */
    method OscSend(value: int)
      requires 1 <= value <= 8
      modifies this`outbox
      ensures outbox == old(outbox) + [DeviceMessage(value, outPort)]
    {
      outbox := outbox + [Message(OutIps[value - 1], outPort, DeviceAddress, value)];
    }

    /** `clearOSCSend(value)`: indexes `outIPs[value]`, so only 0..7 are in bounds. */
    method ClearOscSend(value: int)
      requires 0 <= value < 8
      modifies this`outbox
      ensures outbox == old(outbox) + [ClearMessage(value, outPort)]
    {
      outbox := outbox + [Message(OutIps[value], outPort, ClearAddress, value)];
    }

    /** `processOSCData(data)`: relay the trigger once, then latch. */
    method ProcessOscData(data: byte)
      requires !status ==> 1 <= data <= 8
      modifies this`status, this`outbox
      ensures LatchState() == Trigger(old(LatchState()), data, outPort).0
      ensures outbox == old(outbox) + Trigger(old(LatchState()), data, outPort).1
    {
      if !status {
        OscSend(data);
        ResolumeOscSend();
        status := true;
      }
    }

    /**
     * The dispatch of `oscReceive()` on an already decoded message: only the
     * exact address `/device/` reaches `processOSCData`, with the int argument
     * narrowed to `uint8_t`.
     */
    method OscReceive(address: string, arg: int)
      requires address == DeviceAddress && !status ==> 1 <= arg % 0x100 <= 8
      modifies this`status, this`outbox
      ensures address != DeviceAddress ==> status == old(status) && outbox == old(outbox)
      ensures address == DeviceAddress ==>
        && LatchState() == Trigger(old(LatchState()), arg % 0x100, outPort).0
        && outbox == old(outbox) + Trigger(old(LatchState()), arg % 0x100, outPort).1
    {
      if address == DeviceAddress {
        ProcessOscData(arg % 0x100);
      }
    }

    /**
     * `readSwitch()` with `millis()` read as `now` and the pin level as `high`:
     * outside the debounce window a HIGH pin unlatches, clears every target and
     * restarts the window.
     */
    method ReadSwitch(now: u32, high: bool)
      modifies this`status, this`lastMillis, this`outbox
      ensures LatchState() == Switch(old(LatchState()), now, high, outPort).0
      ensures outbox == old(outbox) + Switch(old(LatchState()), now, high, outPort).1
    {
      if (now - lastMillis) % 0x1_0000_0000 < DebounceDelay {
        return;
      }
      if high {
        status := false;
        for i := 0 to 8
          invariant outbox == old(outbox) + ClearSweep(i, outPort)
          invariant !status && lastMillis == old(lastMillis)
        {
          ClearOscSend(i);
        }
        ClearOscSend(1);
        lastMillis := now;
      }
    }
  }
}

=== FILE: net.dfy ===
/** Machine-level value types of the bridge firmware and its network configuration. */
module Net {

  /** One octet of an `IPAddress` (`uint8_t`). */
  type byte = x: int | 0 <= x < 0x100

  /** The width of the `inPort` and `outPort` globals (`uint16_t`). */
  type u16 = x: int | 0 <= x < 0x1_0000

  /** The width of `millis()` and of `lastMillis` (`uint32_t`). */
  type u32 = x: int | 0 <= x < 0x1_0000_0000

  /** An IPv4 address as its four octets, most significant first. */
  type Octets = s: seq<byte> | |s| == 4 witness [0, 0, 0, 0]

  /** The five configuration fields that the firmware keeps and persists. */
  datatype NetworkConfig = NetworkConfig(
    ip: Octets,
    subnet: Octets,
    gateway: Octets,
    inPort: u16,
    outPort: u16)

  /** Values substituted when the persistent store holds no entry for a field. */
  const DefaultIp: Octets := [192, 168, 1, 99]
  const DefaultSubnet: Octets := [255, 255, 255, 0]
  const DefaultGateway: Octets := [192, 168, 1, 1]
  const DefaultInPort: u16 := 7001
  const DefaultOutPort: u16 := 7000

  function Defaults(): NetworkConfig
  {
    NetworkConfig(DefaultIp, DefaultSubnet, DefaultGateway, DefaultInPort, DefaultOutPort)
  }

  /** The value `IPAddress ip` holds before anything is loaded into it: 0.0.0.0. */
  const Unset: Octets := [0, 0, 0, 0]
}

=== FILE: osc.dfy ===
/**
 * The outbound OSC messages of the bridge, the fixed target table, and the
 * one-shot trigger latch with its debounced switch reset, as functions of the
 * latch state. The class in module Firmware carries these out step by step.
 */
module Osc {
  import opened Net

  /** One emitted datagram: destination, port, OSC address and its single int argument. */
  datatype Message = Message(dest: Octets, port: u16, address: string, value: int)

  const DeviceAddress := "/device/"
  const ConnectAddress := "/column/1/connect"
  const ClearAddress := "/clear/"

  /** `outIPs`: the eight outgoing targets, 192.168.1.101 to 192.168.1.108. */
  const OutIps: seq<Octets> := [
    [192, 168, 1, 101], [192, 168, 1, 102], [192, 168, 1, 103], [192, 168, 1, 104],
    [192, 168, 1, 105], [192, 168, 1, 106], [192, 168, 1, 107], [192, 168, 1, 108]]

  /** `PC_IP`: the peer that receives the connect message. */
  const PcIp: Octets := [192, 168, 1, 200]

  /** `DEBOUNCE_DELAY` in milliseconds. */
  const DebounceDelay := 500

  /** `oscSend(value)`: `/device/` with `value`, to `outIPs[value-1]`. */
  function DeviceMessage(value: int, port: u16): Message
    requires 1 <= value <= 8
  {
    Message(OutIps[value - 1], port, DeviceAddress, value)
  }

  /** `resolumeOSCSend()`: `/column/1/connect` with 1, to `PC_IP`. */
  function ConnectMessage(port: u16): Message
  {
    Message(PcIp, port, ConnectAddress, 1)
  }

  /** `clearOSCSend(value)`: `/clear/` with `value`, to `outIPs[value]`. */
  function ClearMessage(value: int, port: u16): Message
    requires 0 <= value < 8
  {
    Message(OutIps[value], port, ClearAddress, value)
  }

  /** What the first `n` turns of the clearing loop in `readSwitch` send. */
  function ClearSweep(n: nat, port: u16): (ms: seq<Message>)
    requires n <= 8
    ensures |ms| == n
    ensures forall i :: 0 <= i < n ==> ms[i] == ClearMessage(i, port)
  {
    if n == 0 then [] else ClearSweep(n - 1, port) + [ClearMessage(n - 1, port)]
  }

  /** Everything an accepted switch reading sends: the loop over 0..7, then `clearOSCSend(1)` once more. */
  function ResetMessages(port: u16): seq<Message>
  {
    ClearSweep(8, port) + [ClearMessage(1, port)]
  }

  /**
   * An accepted reset sends nine `/clear/` messages on `port`: value i to target i
   * for i in 0..7, then value 1 to target 1 a second time.
   */
  lemma ResetMessagesShape(port: u16)
    ensures |ResetMessages(port)| == 9
    ensures forall i :: 0 <= i < 8 ==>
      ResetMessages(port)[i] == Message(OutIps[i], port, ClearAddress, i)
    ensures ResetMessages(port)[8] == Message(OutIps[1], port, ClearAddress, 1)
    ensures ResetMessages(port)[8] == ResetMessages(port)[1]
  {
  }

  /** The latch and the debounce timestamp: `status` and `lastMillis`. */
  datatype Latch = Latch(status: bool, lastMillis: u32)

  /** `millis() - lastMillis` in `uint32_t` arithmetic: the difference, or the difference across one wrap. */
  function Elapsed(last: u32, now: u32): (d: u32)
    ensures last <= now ==> d == now - last
    ensures now < last ==> d == now - last + 0x1_0000_0000
  {
    (now - last) % 0x1_0000_0000
  }

  /**
   * `processOSCData(v)`: while idle, send `/device/` v to target v-1 and the
   * connect message, then latch; while latched, do nothing. The target index
   * is in bounds only for 1 <= v <= 8, which the firmware does not check.
   */
  function Trigger(s: Latch, v: byte, port: u16): (r: (Latch, seq<Message>))
    requires !s.status ==> 1 <= v <= 8
    ensures r.0.status && r.0.lastMillis == s.lastMillis
    ensures s.status <==> r.1 == []
  {
    if s.status then (s, [])
    else (s.(status := true), [DeviceMessage(v, port), ConnectMessage(port)])
  }

  /**
   * `readSwitch()` at time `now` with the pin at `high`: ignored inside the
   * debounce window or while the pin is low; otherwise unlatch, send the reset
   * messages and restart the window at `now`.
   */
  function Switch(s: Latch, now: u32, high: bool, port: u16): (r: (Latch, seq<Message>))
    ensures r.1 != [] <==> Elapsed(s.lastMillis, now) >= DebounceDelay && high
    ensures r.1 == [] ==> r.0 == s
    ensures r.1 != [] ==> r.0 == Latch(false, now)
  {
    if Elapsed(s.lastMillis, now) < DebounceDelay then (s, [])
    else if high then (Latch(false, now), ResetMessages(port))
    else (s, [])
  }

  /** A trigger while idle sends exactly the two messages, in order, and latches. */
  lemma TriggerWhileIdle(s: Latch, v: byte, port: u16)
    requires !s.status && 1 <= v <= 8
    ensures Trigger(s, v, port).0 == Latch(true, s.lastMillis)
    ensures Trigger(s, v, port).1 == [
      Message(OutIps[v - 1], port, "/device/", v),
      Message([192, 168, 1, 200], port, "/column/1/connect", 1)]
  {
  }

  /**
   * The trigger is one-shot: after any trigger the latch is set, and every
   * further trigger sends nothing and changes nothing.
   */
  lemma TriggerOneShot(s: Latch, v: byte, w: byte, port: u16)
    requires !s.status ==> 1 <= v <= 8
    ensures Trigger(s, v, port).0.status
    ensures Trigger(Trigger(s, v, port).0, w, port) == (Trigger(s, v, port).0, [])
  {
  }

  /** Dropping the latch is what re-arms it: a reset followed by a trigger sends the trigger's two messages. */
  lemma ResetRearms(s: Latch, now: u32, v: byte, port: u16)
    requires Elapsed(s.lastMillis, now) >= DebounceDelay
    requires 1 <= v <= 8
    ensures Switch(s, now, true, port).0 == Latch(false, now)
    ensures Trigger(Switch(s, now, true, port).0, v, port).1 == [DeviceMessage(v, port), ConnectMessage(port)]
  {
  }

  /** The elapsed time `d` milliseconds after `last`, counted across the 2^32 wrap of `millis()`, is `d`. */
  lemma ElapsedAfter(last: u32, d: nat)
    requires d < 0x1_0000_0000
    ensures Elapsed(last, (last + d) % 0x1_0000_0000) == d
  {
  }

  /**
   * Two HIGH readings less than 500 ms apart give one reset, not two: after a
   * reading accepted at `now`, a reading `d` < 500 ms later, even across the
   * wrap of `millis()`, sends nothing and leaves the latch as the first left it.
   */
  lemma SecondPressIgnored(s: Latch, now: u32, d: nat, high: bool, port: u16)
    requires Elapsed(s.lastMillis, now) >= DebounceDelay
    requires d < DebounceDelay
    ensures var first := Switch(s, now, true, port).0;
      Switch(first, (now + d) % 0x1_0000_0000, high, port) == (first, [])
  {
  }

  /** An accepted reading unlatches whatever the latch was, and restarts the window at `now`. */
  lemma AcceptedResetUnlatches(s: Latch, now: u32, port: u16)
    requires Elapsed(s.lastMillis, now) >= DebounceDelay
    ensures Switch(s, now, true, port) == (Latch(false, now), ResetMessages(port))
    ensures !Switch(s, now, true, port).0.status
  {
  }

  /** Inside the window, or with the pin low, a reading changes nothing and sends nothing. */
  lemma IgnoredReadings(s: Latch, now: u32, high: bool, port: u16)
    requires Elapsed(s.lastMillis, now) < DebounceDelay || !high
    ensures Switch(s, now, high, port) == (s, [])
  {
  }
}

=== FILE: text.dfy ===
/**
 * The Arduino `String` operations the command processor relies on:
 * `trim`, `startsWith` and `indexOf`, on strings of characters.
 */
module Text {

  /** C `isspace` in the default locale: space, tab, newline, vertical tab, form feed, return. */
  predicate IsSpace(c: char)
  {
    c == ' ' || 9 <= c as int <= 13
  }

  predicate IsDigit(c: char)
  {
    '0' <= c <= '9'
  }

  /** The number of whitespace characters at the start of `s`. */
  function LeadingSpaces(s: string): (n: nat)
    ensures n <= |s|
    ensures forall k :: 0 <= k < n ==> IsSpace(s[k])
    ensures n < |s| ==> !IsSpace(s[n])
  {
    if s != [] && IsSpace(s[0]) then 1 + LeadingSpaces(s[1..]) else 0
  }

  /** The number of whitespace characters at the end of `s`. */
  function TrailingSpaces(s: string): (n: nat)
    ensures n <= |s|
    ensures forall k :: |s| - n <= k < |s| ==> IsSpace(s[k])
    ensures n < |s| ==> !IsSpace(s[|s| - 1 - n])
  {
    if s != [] && IsSpace(s[|s| - 1]) then 1 + TrailingSpaces(s[..|s| - 1]) else 0
  }

  /** A string with no whitespace at either end. */
  predicate Trimmed(t: string)
  {
    t == [] || (!IsSpace(t[0]) && !IsSpace(t[|t| - 1]))
  }

  /**
   * `String::trim`: `s` without its leading and trailing whitespace.
   * The result is the slice of `s` that starts after the leading whitespace,
   * and every character of `s` outside that slice is whitespace.
   */
  function Trim(s: string): (t: string)
    ensures Trimmed(t)
    ensures LeadingSpaces(s) + |t| <= |s|
    ensures t == s[LeadingSpaces(s)..LeadingSpaces(s) + |t|]
    ensures forall k :: 0 <= k < |s| && !(LeadingSpaces(s) <= k < LeadingSpaces(s) + |t|) ==> IsSpace(s[k])
  {
    var n := LeadingSpaces(s);
    var m := TrailingSpaces(s[n..]);
    SpacesOutside(s, n, m);
    s[n..|s| - m]
  }

  /**
   * When the first `n` characters of `s` and the last `m` characters of
   * `s[n..]` are whitespace, so is every character outside `s[n..|s| - m]`.
   */
  lemma SpacesOutside(s: string, n: nat, m: nat)
    requires n + m <= |s|
    requires forall k :: 0 <= k < n ==> IsSpace(s[k])
    requires forall k :: |s| - n - m <= k < |s| - n ==> IsSpace(s[n..][k])
    ensures forall k :: 0 <= k < |s| && !(n <= k < |s| - m) ==> IsSpace(s[k])
  {
    forall k | |s| - m <= k < |s|
      ensures IsSpace(s[k])
    {
      assert s[k] == s[n..][k - n];
    }
  }

  /** Trimming leaves a string that already has no whitespace at either end as it is. */
  lemma TrimKeepsTrimmed(s: string)
    requires Trimmed(s)
    ensures Trim(s) == s
  {
  }

  /** Trimming twice is trimming once. */
  lemma TrimIdempotent(s: string)
    ensures Trim(Trim(s)) == Trim(s)
  {
  }

  /**
   * The C string an Arduino `String` buffer holds: `s` up to its first NUL.
   * `strcmp` and `strstr`, behind `String == const char*` and
   * `String::indexOf`, see only this part of the buffer.
   */
  function CStr(s: string): (t: string)
    ensures |t| <= |s| && t == s[..|t|]
    ensures forall k :: 0 <= k < |t| ==> t[k] != '\0'
    ensures |t| < |s| ==> s[|t|] == '\0'
  {
    if s == [] || s[0] == '\0' then [] else [s[0]] + CStr(s[1..])
  }

  /** A buffer with no NUL is its own C string. */
  lemma {:induction false} CStrNoNul(s: string)
    requires forall k :: 0 <= k < |s| ==> s[k] != '\0'
    ensures CStr(s) == s
  {
    if s != [] {
      CStrNoNul(s[1..]);
    }
  }

  /** Whatever follows the first NUL is invisible to the C string functions. */
  lemma CStrStopsAtNul(s: string, tail: string)
    requires forall k :: 0 <= k < |s| ==> s[k] != '\0'
    ensures CStr(s + ['\0'] + tail) == s
  {
    var b := s + ['\0'] + tail;
    var t := CStr(b);
    assert b[|s|] == '\0';
    assert |t| == |s|;
    assert t == b[..|s|] == s;
  }

  /** The C string of a C string is itself. */
  lemma CStrIdempotent(s: string)
    ensures CStr(CStr(s)) == CStr(s)
  {
    CStrNoNul(CStr(s));
  }

  /** `String::startsWith`: `p` is a prefix of `s`. */
  predicate StartsWith(s: string, p: string)
  {
    |p| <= |s| && s[..|p|] == p
  }

  /** A prefix of a prefix of `s` is a prefix of `s`. */
  lemma PrefixOfPrefix(s: string, p: string, q: string)
    requires StartsWith(s, p) && StartsWith(p, q)
    ensures StartsWith(s, q)
  {
    assert s[..|q|] == p[..|q|];
  }

  /** A prefix of the C string of `s` is a prefix of `s` itself. */
  lemma CStrPrefix(s: string, p: string)
    requires StartsWith(CStr(s), p)
    ensures StartsWith(s, p)
  {
    assert s[..|p|] == CStr(s)[..|p|];
  }

  /** Two prefixes that differ at a position both cover cannot both start `s`. */
  lemma PrefixesClash(s: string, p: string, q: string, i: nat)
    requires StartsWith(s, p)
    requires i < |p| && i < |q| && p[i] != q[i]
    ensures !StartsWith(s, q)
  {
  }

  /** `p` occurs in `s` starting at position `i`. */
  predicate OccursAt(s: string, p: string, i: int)
  {
    0 <= i && i + |p| <= |s| && s[i..i + |p|] == p
  }

  /** The first position at or after `from` where the non-empty `p` occurs in `s`, or -1. */
  function IndexFrom(s: string, p: string, from: nat): (r: int)
    requires p != []
    decreases |s| - from
    ensures r == -1 || (from <= r && OccursAt(s, p, r))
    ensures forall j :: from <= j && (r == -1 || j < r) ==> !OccursAt(s, p, j)
  {
    if from + |p| > |s| then -1
    else if OccursAt(s, p, from) then from
    else IndexFrom(s, p, from + 1)
  }

  /**
   * `strstr` as `String::indexOf` uses it: the first position where the
   * non-empty `p` occurs in `s`, or -1. The firmware applies it to `CStr` of
   * the buffer.
   */
  function IndexOf(s: string, p: string): (r: int)
    requires p != []
    ensures r == -1 || OccursAt(s, p, r)
    ensures r != -1 ==> s[r] == p[0]
    ensures forall j :: 0 <= j && (r == -1 || j < r) ==> !OccursAt(s, p, j)
  {
    var r := IndexFrom(s, p, 0);
    assert r != -1 ==> s[r..r + |p|][0] == s[r];
    r
  }

  /**
   * `strtol` (behind `String::toInt`) reads no digits from `s`: after the
   * leading whitespace there is neither a digit nor a sign followed by a digit.
   */
  predicate NonNumeric(s: string)
  {
    var t := s[LeadingSpaces(s)..];
    !(t != [] && IsDigit(t[0])) &&
    !(|t| >= 2 && (t[0] == '+' || t[0] == '-') && IsDigit(t[1]))
  }

  /** Whitespace in front of a string does not change whether it is numeric. */
  lemma NonNumericSkipsSpace(c: char, s: string)
    requires IsSpace(c)
    ensures NonNumeric([c] + s) <==> NonNumeric(s)
  {
  }
}
